=== FILE: README.md ===
# IGASTATUS status page — verified model of its decision rules

IGASTATUS is a static status page for Istanbul Airport. Its script (`js/main.js`) simulates
"live" figures from the local hour and `Math.random()`. It animates number counters, lazily
inserts heavy iframes and third-party flight widgets, and hides or shows the navigation bar
while the page scrolls. This project lifts the logic out of the DOM plumbing into pure Dafny
functions and proves what the page promises about it:

- `hours.dfy` (module `Hours`): the hour-of-day step functions. These are the daily and hourly
  flight bases, the daytime aircraft bonus, the status badge and the terminal congestion
  level. The two flight bases and the congestion index are proved equal to independent
  hour-by-hour tables. The bonus and the badge are characterised by the hours at which they
  change, relative to the flight bands.
- `draws.dfy` (module `Draws`): a `Math.random()` draw is a real `r` in [0, 1), and
  `Math.floor(r * K)` lies in [0, K) and reaches every value there.
- `dashboard.dfy` (module `Dashboard`): one tick of `estimateFlightCounts` and one tick of
  `updateActivityDashboard`, each a function of the hour and of its draws.
- `wind.dfy` (module `Wind`): the compass sector and label of a wind angle, and the runway
  pair the page marks active.
- `counter.dfy` (module `Counter`): `animateValue`, with exact reals for timestamps and
  progress.
- `navbar.dfy` (module `Navbar`): the scroll listener, its animation-frame throttle and
  `updateNavbar`, as a state machine over scroll and frame events.
- `lazyload.dfy` (module `LazyLoad`) and `widgets.dfy` (module `FlightWidget`): the two
  intersection-observer callbacks, as transitions of a per-container state.
- `options.dfy` (module `Options`): `Option` and JavaScript truthiness of an attribute read.

Modelling choices:

- The hour (`Date.getHours`) and every random draw are parameters: `Hour` is 0..23 and
  `Unit` is [0, 1).
- Scroll offsets are whole pixels (`int`). The page compares them and never does arithmetic
  on them.
- Animation timestamps, durations and progress are exact reals. Floating-point rounding is
  not modelled.
- The observer's geometry is reduced to the `isIntersecting` flag of each entry. Timers
  (the 300 ms placeholder swap) and load events are explicit events.
- Notes on the behaviour of `js/main.js`:
  - The compass label truncates the angle to its 45-degree sector (`windDeg / 45`). It does
    not pick the nearest compass point.
  - The congestion level "High" is listed but never chosen.
  - The navigation bar is hidden and shown again only on viewports at most 768 pixels wide,
    except that at an offset of 0 or less it is reset to shown on every viewport; otherwise, on
    wide viewports its position is left as it was.
  - There is no "loaded" flag. The iframe path checks for an existing iframe descendant
    (`querySelector`), the widget path checks for an existing script descendant, and both
    then stop observing. The model keeps a container's iframes, and a widget's scripts, as
    one list.

## Model

| member | source | states |
|---|---|---|
| Hours.DailyBaseFlights | js/main.js:198-204 | the daily base is one of 150, 250, 350, and 150 only in the night hours 00-05 |
| Hours.DailyBaseMatchesTable | js/main.js:199-204 | the daily base equals the hour-by-hour table: 350 for 06-10 and 18-22, 150 for 00-05, 250 otherwise |
| Hours.HourlyBaseRate | js/main.js:345-347 | the hourly base is one of 8, 15, 28, and 8 only in the night hours |
| Hours.HourlyBaseMatchesTable | js/main.js:345-347 | the hourly base equals the hour-by-hour table: 28 / 8 / 15 on the same hours |
| Hours.CountersShareBands | js/main.js:346-347 | the hourly and daily counters use the same three bands: each level of one matches exactly one level of the other |
| Hours.DaytimeAircraftBonus | js/main.js:341 | the in-air bonus is 0 or 10 |
| Hours.BonusCoversPeaks | js/main.js:341 | both traffic peaks get the bonus, the night band never does, and it is missing exactly at 00-05 and 23 |
| Hours.AirportStatus | js/main.js:253-261 | "Low Activity" is only reported in the night band of the counters |
| Hours.StatusText | js/main.js:253-259 | the badge text is "Low Activity" exactly for the low-activity status |
| Hours.StatusLagsNightBand | js/main.js:253 | hour 00 is the only night-band hour reported as operational; low activity is exactly the night band without 00 |
| Hours.CongestionIndex | js/main.js:381-384 | the congestion index is 0, 1 or 2, never the index of "High" |
| Hours.CongestionMatchesTable | js/main.js:382-384 | the index equals the hour-by-hour table: 2 for 07-09 and 17-19, 0 for 00-05, 1 otherwise |
| Hours.CongestionLabel | js/main.js:381-388 | the label is Low, Normal or Moderate, and it is Low exactly in the night band of the counters |
| Hours.CongestionBarWidth | js/main.js:389 | the bar width is 25, 50 or 75 percent, never full, and it matches the label shown |
| Hours.CongestionVersusTraffic | js/main.js:383-384 | low congestion is exactly the night band; 17 is the only moderate hour outside the traffic peaks; 06, 10 and 20-22 are peaks without moderate congestion |
| Draws.Jitter | js/main.js:206-207 | `Math.floor(r * K)` for a draw in [0, 1) lies in [0, K) |
| Draws.JitterOnto | js/main.js:349-350 | every integer in [0, K) is produced by some draw |
| Draws.FloorOfShiftedDraw | js/main.js:341 | flooring an integer plus a scaled draw is that integer plus the jitter |
| Dashboard.EstimateFlightCounts | js/main.js:188-207 | counts exist exactly when both counter elements exist; arrivals and departures each lie in [base, base+49] |
| Dashboard.FlightCountsIndependent | js/main.js:206-207 | every pair of arrivals and departures in the band's range comes from some pair of draws, so the two are independent |
| Dashboard.FlightAnimations | js/main.js:209-210 | the arrivals counter animates from 0 up to the arrivals count, the departures counter up to the departures count, over a positive duration |
| Dashboard.UpdateActivity | js/main.js:336-389 | in-air aircraft lie in [15, 29] plus the bonus; hourly figures in [base, base+7]; wind speed in [5, 19]; the angle is in 0..359 and the direction is the label of its sector; 35L/35R exactly for 135..315; congestion label and bar width are those of the hour, never "High" and never full |
| Dashboard.ActivityReachable | js/main.js:341-356 | the five draws are independent: every combination of an aircraft count, hourly arrivals and departures, wind speed and angle within their ranges is produced by some draws, so either runway pair can be selected |
| Dashboard.ActivityAnimations | js/main.js:341-357 | the four dashboard counters animate from 0 up to the tick's aircraft in air, hourly arrivals, hourly departures and wind speed, each positive, over a positive duration |
| Wind.Sector | js/main.js:364 | the sector of an angle in 0..359 is in 0..7, so the label lookup is in bounds, and it is the k with 45k <= angle < 45k+45 |
| Wind.Direction | js/main.js:364 | the direction shown is always one of the eight compass labels |
| Wind.DirectionCovers | js/main.js:364 | the label of sector k is shown exactly for the angles [45k, 45k+45) |
| Wind.ActivePair | js/main.js:372-378 | 35L/35R are only chosen in sectors SE to NW, and in NW only at 315; 17L/17R only in sectors N, NE, E and NW |
| Wind.ClearActive | js/main.js:369-370 | every runway-class element loses the active class; other elements are untouched |
| Wind.MarkPair | js/main.js:374-377 | every element whose data-runway names a runway of the pair gains the active class, whatever its class; other elements are untouched |
| Wind.Designators | js/main.js:374-377 | each runway pair names two runways |
| Wind.PairBySector | js/main.js:372-378 | SE, S, SW, W always select 35L/35R; N, NE, E always select 17L/17R; in NW only 315 selects 35L/35R |
| Wind.PairNotDeterminedByDirection | js/main.js:364-372 | the angles 315 and 316 both show "NW" but select different runway pairs |
| Wind.SelectRunways | js/main.js:369-378 | after the update a runway-class element is active exactly when it belongs to the selected pair; every element of the pair is active; other elements keep their state |
| Wind.SelectRunwaysByAngle | js/main.js:372-378 | a runway named 35L or 35R is active exactly when 135 <= angle <= 315, one named 17L or 17R exactly otherwise |
| Wind.SelectRunwaysForgetsHistory | js/main.js:370 | the runways' state after an update does not depend on earlier angles |
| Counter.Progress | js/main.js:221 | progress is clamped to [0, 1] for a frame no earlier than the start, and it is 1 exactly once the duration has elapsed |
| Counter.Unset | js/main.js:220 | the `!startTimestamp` test: no start time yet, or a start time of 0, which is falsy |
| Counter.ProgressMonotone | js/main.js:221 | later frames have no smaller progress |
| Counter.FrameValue | js/main.js:222 | the value lies in [start, end], is start at progress 0 and end at progress 1 |
| Counter.FrameValueBelowEnd | js/main.js:222-226 | below full progress an increasing counter shows less than its end |
| Counter.FrameValueMonotone | js/main.js:222 | the shown value never decreases as progress grows |
| Counter.Step | js/main.js:219-228 | a frame requests another frame exactly while the duration has not elapsed; the last frame shows end exactly; an unset or zero start shows the start value |
| Counter.StartAfter | js/main.js:217-220 | the start time is set once at least one frame has run |
| Counter.StartIsFirstNonZero | js/main.js:220 | since 0 is falsy, the start time is the first non-zero frame timestamp |
| Counter.StepExtends | js/main.js:219-227 | one more frame keeps the start time, shows the value at its progress, and does not show less than the previous frame |
| Counter.Animate | js/main.js:216-231 | all values shown lie in [start, end] and never decrease; the animation finishes exactly at the first frame whose elapsed time reaches the duration, shows end there and asks for no further frame |
| Counter.FinishesWithin | js/main.js:225-227 | frames at least `gap` apart finish the animation once (n-2)*gap reaches the duration |
| Navbar.UpdateNavbar | js/main.js:149-172 | at offset <= 0 the bar is reset to shown and unscrolled; a narrow viewport hides it only, and always, on a downward move past 100 and shows it only, and always, on an upward move; an equal offset or a wide viewport leaves it in place; lastScroll becomes the offset and ticking is cleared |
| Navbar.IsMobile | js/main.js:147 | a viewport is mobile exactly when it is at most 768 pixels wide |
| Navbar.OnScroll | js/main.js:174-183 | a scroll event queues one update when none is pending and is dropped otherwise; the bar itself does not change |
| Navbar.RunQueued | js/main.js:178-180 | running queued updates ends with the last offset recorded, ticking cleared, and on a wide viewport never hides the bar |
| Navbar.OnFrame | js/main.js:178-181 | after a frame nothing is pending and lastScroll is the captured offset |
| Navbar.Apply | js/main.js:174-183 | scroll and frame events preserve the throttle invariant |
| Navbar.AtMostOnePending | js/main.js:143-183 | under any interleaving of scroll events and frames at most one update is pending, exactly while ticking |
| Navbar.WideBarStaysShown | js/main.js:147-167 | on wide viewports a shown bar is never hidden, whatever is scrolled |
| Navbar.InitialThrottled | js/main.js:142-143 | the page-load state satisfies the throttle invariant with the bar shown |
| LazyLoad.Fresh | js/main.js:75-77 | a registered container is observed and has no iframe |
| LazyLoad.Eligible | js/main.js:42 | the load condition: a truthy data-src and no iframe in the container; the corrected condition also refuses while an iframe waits for its swap |
| LazyLoad.HandleEntry | js/main.js:38-67 | an intersecting entry with a data-src and no iframe creates one iframe for data-src and stops observing: inserted at once without a placeholder, or queued for the swap with one, the faded placeholder staying in the container; data-src and placeholder are never changed; any other entry changes nothing |
| LazyLoad.HandleEntries | js/main.js:37-69 | a batch with no intersecting entry, or for a container without data-src, changes nothing; with the corrected guard a container already holding an iframe or a pending one is untouched; a batch with an intersecting entry for an eligible container creates at least one iframe (exactly one with the corrected guard) and stops observing it; the source is kept and observation is never resumed |
| LazyLoad.Deliver | js/main.js:36-72 | an unobserved container receives no batches; an observed eligible container loads on a batch with an intersecting entry, creating exactly one iframe with the corrected guard, and is no longer observed |
| LazyLoad.Swap | js/main.js:58-61 | the swap removes the placeholder and leaves exactly the oldest waiting iframe in the container, the others still waiting; without a waiting iframe nothing changes |
| LazyLoad.AtMostOnce | js/main.js:42-66 | with the corrected guard a container creates at most one iframe and is observed exactly until it does, under any batches and timers; the page as written keeps this for containers without a placeholder (LazyLoad.AtMostOnceWithoutPlaceholder) |
| LazyLoad.NoPlaceholderEntriesAgree | js/main.js:42-66 | within one batch, for a container without a placeholder, the guard as written and the corrected guard give the same result and nothing waits for a swap |
| LazyLoad.NoPlaceholderGuardsAgree | js/main.js:42-66 | for a container without a placeholder the guard as written and the corrected guard agree under any batches and timers |
| LazyLoad.AtMostOnceWithoutPlaceholder | js/main.js:42-66 | the page as written creates at most one iframe for a container without a placeholder |
| LazyLoad.LoadedIgnoresBatches | js/main.js:66 | once loaded, re-triggering a container is a no-op |
| LazyLoad.MissingSourceNeverLoads | js/main.js:40-42 | without data-src a container never changes and stays observed |
| LazyLoad.NoEmbedBeforeIntersection | js/main.js:38 | a container that never intersected has no iframe |
| LazyLoad.NeverTwoIframesShown | js/main.js:42-64 | even with the guard as written a container never holds two iframes at once |
| LazyLoad.DoubleLoadAsWritten | js/main.js:42-66 | the guard as written creates two iframes for a placeholder container whose batch holds two intersecting entries; the corrected guard creates one |
| FlightWidget.WidgetUrl | js/main.js:92 | the script URL starts with the fixed widget template |
| FlightWidget.WidgetUrlRoundTrip | js/main.js:92 | for an airport code without '/', the airport and type can be read back from the URL |
| FlightWidget.WidgetUrlParsedBack | js/main.js:92 | every URL read back this way is the template filled with what was read |
| FlightWidget.Fresh | js/main.js:112-114 | a registered widget is observed and has no script; it holds and displays a placeholder exactly when its markup has one |
| FlightWidget.HandleEntry | js/main.js:84-104 | an intersecting entry with airport and type and no script appends the one template script and stops observing; any other entry changes nothing |
| FlightWidget.HandleEntries | js/main.js:83-106 | a batch with no intersecting entry, or for a widget that has a script, changes nothing; a batch with an intersecting entry for a complete widget without a script leaves it with exactly the template script, unobserved |
| FlightWidget.Deliver | js/main.js:82-109 | an unobserved widget receives no batches; an observed complete widget without a script loads on a batch with an intersecting entry |
| FlightWidget.OnScriptLoad | js/main.js:95-100 | the script's load hides the placeholder when the widget holds one and changes nothing else; without one it changes nothing |
| FlightWidget.AtMostOnce | js/main.js:89-103 | a widget gets at most one script, for its own airport and type; it is observed exactly until then, and the placeholder is hidden only after that |
| FlightWidget.IncompleteWidgetNeverLoads | js/main.js:86-89 | without both airport and type a widget never changes and stays observed |
| FlightWidget.FreshLoadedOnce | js/main.js:112-114 | a registered widget, with or without a placeholder, satisfies the widget invariant |

## Findings

| source | as written | input that shows it | evidently intended | confidence | as-written member | corrected member |
|---|---|---|---|---|---|---|
| js/main.js:42-66 | the iframe guard looks only for an iframe descendant, but with a placeholder the iframe is inserted 300 ms later, so a second intersecting entry for the same container in the same callback batch creates a second iframe (a second network load; the later swap discards the first) | a container with data-src and a placeholder, and one callback batch of entries intersecting, not intersecting, intersecting | each container's embed is created at most once | low: needs the container to leave and re-enter the margin before the callback runs; not executed | LazyLoad.DoubleLoadAsWritten | LazyLoad.AtMostOnce |

## Left out

- The clock (js/main.js:12-31) is left out. It depends entirely on the host's time-zone formatting.
- Smooth anchor scrolling (js/main.js:119-137) is left out. It is layout: offsets from `getBoundingClientRect`.
- Navbar styling strings and box shadows are reduced to the `scrolled` and `hidden` flags. The placeholder fade, iframe sizing attributes and `rootMargin` are left out too.
- The section reveal observer (js/main.js:305-323) is left out. It is cosmetic.
- The PerformanceObserver logging, console banner and debug outline (js/main.js:270-283, 328-331, 401-406) are left out. They are I/O only.
- The page-level error listener (js/main.js:288-300) is left out. It replaces a failed iframe with an HTML message.
- The widget script's own behaviour and the iframe contents are left out. They are external code.
- Timer scheduling is left out. The 5-minute, 10-minute and 1-minute intervals and the order of unrelated timer callbacks carry no logic beyond "each tick recomputes its figures".
- The text of the status icons and the badge gradients is left out. It is presentation.
- Dashboard.UpdateActivity: the page passes each dashboard element to `animateValue` without checking that it exists. A missing element makes the frame callback throw, which is not modelled. The other dashboard elements are guarded and only presentation depends on them.
- Counter.Animate: timestamps are exact reals, so floating-point rounding of `(t - t0) / duration` is not modelled. Animations are only modelled for `start <= end` and a positive duration. Every call in the page meets these conditions (Dashboard.FlightAnimations, Dashboard.ActivityAnimations).
- Dashboard.UpdateActivity: the draws and the sums `15 + r*15 + bonus` and `5 + r*15` are exact reals. The page computes them in IEEE doubles, where the largest draws (r = 1 - 2^-53) round the sum up to 30, or 40 by day, and the wind speed to 20. That rounding at the top draw is not modelled, so the stated upper bounds hold for exact reals only.
- Draws.FloorOfShiftedDraw: holds for exact reals only. In doubles, floor(15 + r*15) is 30 while 15 + floor(r*15) is 29 at r = 1 - 2^-53; floating-point rounding is not modelled.
- Navbar.UpdateNavbar: the page has no guard for a missing `.navbar` element (js/main.js:144). Without one, `updateNavbar` throws before `ticking = false` (js/main.js:171), and no further update is ever requested. The model assumes the bar exists.
- Hours.AirportStatus: `checkAirportStatus` returns without doing anything when any of the badge, text or icon elements is missing (js/main.js:247). The model computes the status for a page that has all three.
- Dashboard.UpdateActivity: the dashboard runs only when the page has an `.activity-dashboard` element (js/main.js:393-396). The model describes one update on a page that has it.
- Navbar.UpdateNavbar: offsets are whole pixels, while the page's offset may be fractional. Only comparisons are made on it.

=== FILE: counter.dfy ===
/**
 The animated number counter (animateValue). Each animation frame receives a timestamp;
 the first frame fixes the start time, every frame shows
 floor(min((ts - t0) / duration, 1) * (end - start) + start), and a further frame is
 requested while the progress is below 1. Timestamps and progress are exact reals here,
 not floating point.
 */
module Counter {

  import opened Options
  import opened Draws

  /** One call of animateValue: the value counted from, the value counted to, and the duration in milliseconds. */
  datatype Animation = Animation(start: int, end: int, duration: real)

  /** The `!startTimestamp` test: no start yet, or a start of 0, which is falsy too. */
  predicate Unset(t: Option<real>)
  {
    t.None? || t.value == 0.0
  }

  /** Math.min on reals. */
  function Min(x: real, y: real): real
  {
    if x <= y then x else y
  }

  /** Fraction of the duration elapsed since the start time, clamped at 1. */
  function Progress(a: Animation, t0: real, ts: real): (p: real)
    requires a.duration > 0.0
    ensures t0 <= ts ==> 0.0 <= p <= 1.0
    ensures p == 1.0 <==> ts - t0 >= a.duration
  {
    Min((ts - t0) / a.duration, 1.0)
  }

  /** Later frames have at least the progress of earlier ones. */
  lemma ProgressMonotone(a: Animation, t0: real, t1: real, t2: real)
    requires a.duration > 0.0 && t1 <= t2
    ensures Progress(a, t0, t1) <= Progress(a, t0, t2)
  {
    assert (t2 - t0) / a.duration - (t1 - t0) / a.duration == (t2 - t1) / a.duration;
  }

  /** The value a frame shows at a given progress. */
  function FrameValue(a: Animation, p: real): (v: int)
    ensures a.start <= a.end && 0.0 <= p <= 1.0 ==> a.start <= v <= a.end
    ensures p == 0.0 ==> v == a.start
    ensures p == 1.0 ==> v == a.end
  {
    var span := (a.end - a.start) as real;
    assert 0.0 <= span && 0.0 <= p <= 1.0 ==> 0.0 <= p * span <= span by {
      if 0.0 <= span && 0.0 <= p <= 1.0 {
        assert span - p * span == (1.0 - p) * span;
      }
    }
    (p * span + a.start as real).Floor
  }

  /** Below full progress an increasing counter has not yet reached its end value. */
  lemma FrameValueBelowEnd(a: Animation, p: real)
    ensures a.start < a.end && p < 1.0 ==> FrameValue(a, p) < a.end
  {
    if a.start < a.end && p < 1.0 {
      var span := (a.end - a.start) as real;
      assert span - p * span == (1.0 - p) * span;
      assert p * span < span;
      var x := p * span + a.start as real;
      assert x < a.end as real;
      assert x.Floor as real <= x;
      assert FrameValue(a, p) == x.Floor;
    }
  }

  /** For an increasing counter the shown value never decreases as progress grows. */
  lemma FrameValueMonotone(a: Animation, p: real, q: real)
    requires a.start <= a.end && p <= q
    ensures FrameValue(a, p) <= FrameValue(a, q)
  {
    var span := (a.end - a.start) as real;
    assert q * span - p * span == (q - p) * span;
    MulNonNegativeFactor(q - p, span);
    var x := p * span + a.start as real;
    var y := q * span + a.start as real;
    assert x <= y;
    assert x.Floor <= y.Floor by {
      assert x.Floor as real <= x <= y < y.Floor as real + 1.0;
    }
  }

  /** The outcome of one frame callback: the start time it keeps, the value it shows,
      and whether it requests another frame. */
  datatype Frame = Frame(startTs: real, value: int, again: bool)

  /** One frame callback at timestamp ts, given the start time set so far. */
  function Step(a: Animation, st: Option<real>, ts: real): (f: Frame)
    requires a.duration > 0.0
    ensures f.again <==> ts - f.startTs < a.duration
    ensures !f.again ==> f.value == a.end
    ensures a.start < a.end && f.again ==> f.value < a.end
    ensures a.start <= a.end && (Unset(st) || st.value <= ts) ==> a.start <= f.value <= a.end
    ensures Unset(st) ==> f.value == a.start
  {
    var t0 := if Unset(st) then ts else st.value;
    var p := Progress(a, t0, ts);
    FrameValueBelowEnd(a, p);
    Frame(t0, FrameValue(a, p), p < 1.0)
  }

  /** The start time after a sequence of frames, replaying the `!startTimestamp` rule frame by frame. */
  function StartAfter(frames: seq<real>): (st: Option<real>)
    ensures st.None? <==> |frames| == 0
  {
    if |frames| == 0 then None
    else
      var prev := StartAfter(frames[..|frames| - 1]);
      Some(if Unset(prev) then frames[|frames| - 1] else prev.value)
  }

  /** Independent description of the start time: the first non-zero timestamp, or 0 if there is none. */
  function FirstNonZero(frames: seq<real>): real
  {
    if |frames| == 0 then 0.0
    else if frames[0] != 0.0 then frames[0]
    else FirstNonZero(frames[1..])
  }

  lemma {:induction false} FirstNonZeroAppend(frames: seq<real>, t: real)
    ensures FirstNonZero(frames + [t]) == if FirstNonZero(frames) == 0.0 then t else FirstNonZero(frames)
  {
    if |frames| > 0 {
      assert (frames + [t])[1..] == frames[1..] + [t];
      FirstNonZeroAppend(frames[1..], t);
    }
  }

  /** Because 0 is falsy, a frame at timestamp 0 does not fix the start: the start is the first non-zero timestamp. */
  lemma {:induction false} StartIsFirstNonZero(frames: seq<real>)
    requires |frames| > 0
    ensures StartAfter(frames) == Some(FirstNonZero(frames))
  {
    var n := |frames|;
    var prefix := frames[..n - 1];
    assert frames == prefix + [frames[n - 1]];
    FirstNonZeroAppend(prefix, frames[n - 1]);
    if n > 1 {
      StartIsFirstNonZero(prefix);
    }
  }

  /** Time from the start time to the last of the frames. */
  function Elapsed(frames: seq<real>): real
    requires |frames| > 0
  {
    frames[|frames| - 1] - StartAfter(frames).value
  }

  predicate Ascending(frames: seq<real>)
  {
    forall i, j :: 0 <= i <= j < |frames| ==> frames[i] <= frames[j]
  }

  /** What one more frame does to the state Animate keeps: the start time it replays, the value it shows, and
      that this value is no smaller than the previous frame's. */
  lemma StepExtends(a: Animation, frames: seq<real>, i: int)
    requires a.duration > 0.0 && a.start <= a.end && Ascending(frames) && 0 <= i < |frames|
    requires i > 0 ==> StartAfter(frames[..i]).value <= frames[i - 1]
    requires i > 0 && StartAfter(frames[..i]).value == 0.0 ==> frames[i - 1] == 0.0
    ensures var st := StartAfter(frames[..i]);
      var f := Step(a, st, frames[i]);
      && StartAfter(frames[..i + 1]) == Some(f.startTs)
      && f.startTs <= frames[i]
      && (f.startTs == 0.0 ==> frames[i] == 0.0)
      && f.value == FrameValue(a, Progress(a, f.startTs, frames[i]))
      && Elapsed(frames[..i + 1]) == frames[i] - f.startTs
      && (i > 0 ==> FrameValue(a, Progress(a, st.value, frames[i - 1])) <= f.value)
  {
    var st := StartAfter(frames[..i]);
    var f := Step(a, st, frames[i]);
    assert frames[..i + 1][..i] == frames[..i];
    if i > 0 {
      if Unset(st) {
        assert FrameValue(a, Progress(a, st.value, frames[i - 1])) == a.start;
      } else {
        ProgressMonotone(a, st.value, frames[i - 1], frames[i]);
        FrameValueMonotone(a, Progress(a, st.value, frames[i - 1]), Progress(a, st.value, frames[i]));
      }
    }
  }

  /**
   Runs the animation over the animation-frame timestamps it is offered, stopping at the first
   frame that reaches full progress. Returns the values shown and whether the animation finished.
   */
  method Animate(a: Animation, frames: seq<real>) returns (shown: seq<int>, done: bool)
    requires a.duration > 0.0 && a.start <= a.end
    requires Ascending(frames)
    ensures |shown| <= |frames|
    ensures forall k :: 0 <= k < |shown| ==> a.start <= shown[k] <= a.end
    ensures forall k, l :: 0 <= k <= l < |shown| ==> shown[k] <= shown[l]
    ensures done ==> 0 < |shown| && shown[|shown| - 1] == a.end
    ensures done <==> 0 < |shown| && Elapsed(frames[..|shown|]) >= a.duration
    ensures forall k :: 0 < k < |shown| ==> Elapsed(frames[..k]) < a.duration
    ensures !done ==> |shown| == |frames|
  {
    shown := [];
    done := false;
    var st: Option<real> := None;
    var i := 0;
    while i < |frames| && !done
      invariant 0 <= i <= |frames| && |shown| == i
      invariant st == StartAfter(frames[..i])
      invariant i > 0 ==> st.Some? && st.value <= frames[i - 1]
      invariant i > 0 && st.value == 0.0 ==> frames[i - 1] == 0.0
      invariant i > 0 ==> shown[i - 1] == FrameValue(a, Progress(a, st.value, frames[i - 1]))
      invariant forall k :: 0 <= k < i ==> a.start <= shown[k] <= a.end
      invariant forall k, l :: 0 <= k <= l < i ==> shown[k] <= shown[l]
      invariant done ==> 0 < i && shown[i - 1] == a.end
      invariant done <==> 0 < i && Elapsed(frames[..i]) >= a.duration
      invariant forall k :: 0 < k < i ==> Elapsed(frames[..k]) < a.duration
    {
      var f := Step(a, st, frames[i]);
      StepExtends(a, frames, i);
      shown := shown + [f.value];
      st := Some(f.startTs);
      done := !f.again;
      i := i + 1;
    }
  }

  lemma {:induction false} SpacedFrames(frames: seq<real>, gap: real, j: int)
    requires forall i :: 0 <= i < |frames| - 1 ==> frames[i] + gap <= frames[i + 1]
    requires 1 <= j < |frames|
    ensures frames[j] >= frames[1] + (j - 1) as real * gap
  {
    if j > 1 {
      SpacedFrames(frames, gap, j - 1);
    }
  }

  /**
   With frames at least `gap` apart, n frames with (n - 2) * gap >= duration always reach full
   progress, so Animate finishes: at most the first frame can be the falsy timestamp 0.
   */
  lemma FinishesWithin(a: Animation, frames: seq<real>, gap: real)
    requires a.duration > 0.0 && gap > 0.0 && |frames| >= 2
    requires forall i :: 0 <= i < |frames| - 1 ==> frames[i] + gap <= frames[i + 1]
    requires (|frames| - 2) as real * gap >= a.duration
    ensures Elapsed(frames) >= a.duration
  {
    StartIsFirstNonZero(frames);
    assert FirstNonZero(frames) <= frames[1] by {
      if frames[0] == 0.0 {
        assert frames[1..][0] == frames[1];
      }
    }
    SpacedFrames(frames, gap, |frames| - 1);
  }
}

=== FILE: dashboard.dfy ===
/**
 The two periodic simulators of the status page: the daily flight counters
 (estimateFlightCounts, every five minutes) and the activity dashboard
 (updateActivityDashboard, every minute). Each tick is a pure function of the hour and
 of the Math.random() draws it makes, in the order the page makes them.
 */
module Dashboard {

  import opened Options
  import opened Hours
  import opened Draws
  import opened Wind
  import Counter

  // ---------------------------------------------------------------------------
  // Daily flight counters
  // ---------------------------------------------------------------------------

  datatype FlightCounts = FlightCounts(arrivals: int, departures: int)

  /** Jitter range of the daily counters: Math.floor(Math.random() * 50). */
  const DailySpread := 50

  predicate InDailyRange(hour: Hour, n: int)
  {
    DailyBaseFlights(hour) <= n <= DailyBaseFlights(hour) + DailySpread - 1
  }

  /** One tick of the daily counters; nothing is computed unless both counter elements exist. */
  function EstimateFlightCounts(hour: Hour, hasArrivals: bool, hasDepartures: bool, rArr: Unit, rDep: Unit)
    : (r: Option<FlightCounts>)
    ensures r.Some? <==> hasArrivals && hasDepartures
    ensures r.Some? ==> InDailyRange(hour, r.value.arrivals) && InDailyRange(hour, r.value.departures)
  {
    if !hasArrivals || !hasDepartures then None
    else
      var base := DailyBaseFlights(hour);
      Some(FlightCounts(base + Jitter(rArr, DailySpread), base + Jitter(rDep, DailySpread)))
  }

  /** Arrivals and departures are drawn independently: every pair in the band's range is produced by some draws. */
  lemma FlightCountsIndependent(hour: Hour, a: int, d: int) returns (rArr: Unit, rDep: Unit)
    requires InDailyRange(hour, a) && InDailyRange(hour, d)
    ensures EstimateFlightCounts(hour, true, true, rArr, rDep) == Some(FlightCounts(a, d))
  {
    var base := DailyBaseFlights(hour);
    rArr := JitterOnto(DailySpread, a - base);
    rDep := JitterOnto(DailySpread, d - base);
  }

  /** The two counter animations a tick starts: from 0 to each count over 2000 ms. Both meet
      the conditions under which a counter climbs monotonically to its target. */
  function FlightAnimations(counts: FlightCounts, hour: Hour): (anims: seq<Counter.Animation>)
    requires InDailyRange(hour, counts.arrivals) && InDailyRange(hour, counts.departures)
    ensures |anims| == 2
    ensures anims[0].end == counts.arrivals && anims[1].end == counts.departures
    ensures forall i :: 0 <= i < |anims| ==> anims[i].duration > 0.0 && 0 == anims[i].start <= anims[i].end
  {
    [Counter.Animation(0, counts.arrivals, 2000.0), Counter.Animation(0, counts.departures, 2000.0)]
  }

  // ---------------------------------------------------------------------------
  // Activity dashboard
  // ---------------------------------------------------------------------------

  /** The five Math.random() draws of one dashboard tick, in the order the page makes them. */
  datatype ActivityDraws = ActivityDraws(aircraft: Unit, arrivals: Unit, departures: Unit, windSpeed: Unit, windAngle: Unit)

  datatype Activity = Activity(
    aircraftInAir: int,
    hourlyArrivals: int,
    hourlyDepartures: int,
    windSpeed: int,
    windDeg: Degree,
    direction: string,
    runways: RunwayPair,
    congestion: string,
    congestionWidth: int)

  /** Jitter range of the hourly figures: Math.floor(Math.random() * 8). */
  const HourlySpread := 8

  /** One dashboard tick. */
  function UpdateActivity(hour: Hour, draws: ActivityDraws): (a: Activity)
    ensures 15 + DaytimeAircraftBonus(hour) <= a.aircraftInAir <= 29 + DaytimeAircraftBonus(hour)
    ensures HourlyBaseRate(hour) <= a.hourlyArrivals <= HourlyBaseRate(hour) + HourlySpread - 1
    ensures HourlyBaseRate(hour) <= a.hourlyDepartures <= HourlyBaseRate(hour) + HourlySpread - 1
    ensures 5 <= a.windSpeed <= 19
    ensures 0 <= a.windDeg < 360
    ensures a.direction == CompassLabels[Sector(a.windDeg)]
    ensures a.runways == Pair35 <==> 135 <= a.windDeg <= 315
    ensures a.congestion == CongestionLabel(hour) && a.congestionWidth == CongestionBarWidth(hour)
    ensures a.congestion != "High" && a.congestionWidth < 100
  {
    var aircraft := (15.0 + draws.aircraft * 15.0 + DaytimeAircraftBonus(hour) as real).Floor;
    FloorOfShiftedDraw(15 + DaytimeAircraftBonus(hour), draws.aircraft, 15);
    var base := HourlyBaseRate(hour);
    var speed := (5.0 + draws.windSpeed * 15.0).Floor;
    FloorOfShiftedDraw(5, draws.windSpeed, 15);
    var deg := Jitter(draws.windAngle, 360);
    Activity(
      aircraft,
      base + Jitter(draws.arrivals, HourlySpread),
      base + Jitter(draws.departures, HourlySpread),
      speed,
      deg,
      Direction(deg),
      ActivePair(deg),
      CongestionLabel(hour),
      CongestionBarWidth(hour))
  }

  /**
   The five figures are drawn independently: every combination of an aircraft count, a hourly
   arrivals and departures figure, a wind speed and an angle within their ranges is produced by
   some draws, so in particular a tick can select either runway pair.
   */
  lemma ActivityReachable(hour: Hour, air: int, arr: int, dep: int, speed: int, deg: Degree)
    returns (draws: ActivityDraws)
    requires 15 + DaytimeAircraftBonus(hour) <= air <= 29 + DaytimeAircraftBonus(hour)
    requires HourlyBaseRate(hour) <= arr <= HourlyBaseRate(hour) + HourlySpread - 1
    requires HourlyBaseRate(hour) <= dep <= HourlyBaseRate(hour) + HourlySpread - 1
    requires 5 <= speed <= 19
    ensures var a := UpdateActivity(hour, draws);
      && a.aircraftInAir == air && a.hourlyArrivals == arr && a.hourlyDepartures == dep
      && a.windSpeed == speed && a.windDeg == deg
  {
    var bonus := DaytimeAircraftBonus(hour);
    var base := HourlyBaseRate(hour);
    var rAir := JitterOnto(15, air - 15 - bonus);
    var rArr := JitterOnto(HourlySpread, arr - base);
    var rDep := JitterOnto(HourlySpread, dep - base);
    var rSpeed := JitterOnto(15, speed - 5);
    var rDeg := JitterOnto(360, deg);
    FloorOfShiftedDraw(15 + bonus, rAir, 15);
    FloorOfShiftedDraw(5, rSpeed, 15);
    draws := ActivityDraws(rAir, rArr, rDep, rSpeed, rDeg);
  }

  /** The four counter animations a dashboard tick starts, from 0 over 1500 ms: aircraft in the air,
      hourly arrivals, hourly departures, wind speed. All count up from 0 to a positive target. */
  function ActivityAnimations(hour: Hour, draws: ActivityDraws): (anims: seq<Counter.Animation>)
    ensures |anims| == 4
    ensures var a := UpdateActivity(hour, draws);
      && anims[0].end == a.aircraftInAir && anims[1].end == a.hourlyArrivals
      && anims[2].end == a.hourlyDepartures && anims[3].end == a.windSpeed
    ensures forall i :: 0 <= i < |anims| ==> anims[i].duration > 0.0 && 0 == anims[i].start < anims[i].end
  {
    var a := UpdateActivity(hour, draws);
    [Counter.Animation(0, a.aircraftInAir, 1500.0),
     Counter.Animation(0, a.hourlyArrivals, 1500.0),
     Counter.Animation(0, a.hourlyDepartures, 1500.0),
     Counter.Animation(0, a.windSpeed, 1500.0)]
  }
}

=== FILE: draws.dfy ===
/**
 The page's only source of variation is Math.random(), a real in [0, 1). Every jittered
 figure is `Math.floor(r * K)` for a fixed K; this module states what such a draw can yield.
 */
module Draws {

  /** A value Math.random() can return. */
  type Unit = r: real | 0.0 <= r < 1.0

  /** A product of positive reals is positive. */
  lemma MulPositive(u: real, v: real)
    requires 0.0 < u && 0.0 < v
    ensures 0.0 < u * v
  {
  }

  /** A product of non-negative reals is non-negative. */
  lemma MulNonNegativeFactor(u: real, v: real)
    requires 0.0 <= u && 0.0 <= v
    ensures 0.0 <= u * v
  {
  }

  /** Math.floor(r * k): a uniform integer draw in [0, k). */
  function Jitter(r: Unit, k: nat): (j: int)
    requires k > 0
    ensures 0 <= j < k
  {
    assert r * k as real < k as real by {
      assert k as real - r * k as real == (1.0 - r) * k as real;
      MulPositive(1.0 - r, k as real);
    }
    (r * k as real).Floor
  }

  /** Every integer in [0, k) is reached by some draw, so the jitter range is exactly [0, k). */
  lemma JitterOnto(k: nat, j: int) returns (r: Unit)
    requires 0 <= j < k
    ensures Jitter(r, k) == j
  {
    var q := j as real / k as real;
    assert q * k as real == j as real;
    assert 0.0 <= q < 1.0 by {
      assert (1.0 - q) * k as real == k as real - j as real;
      if q >= 1.0 {
        MulNonNegativeFactor(q - 1.0, k as real);
      }
    }
    r := q;
  }

  /** Math.floor(base + r * k) for an integer base is the base plus the jitter. */
  lemma FloorOfShiftedDraw(base: int, r: Unit, k: nat)
    requires k > 0
    ensures (base as real + r * k as real).Floor == base + Jitter(r, k)
  {
  }
}

=== FILE: hours.dfy ===
/**
 The hour-of-day rules of the status page. Every "live" figure on the page is chosen
 from the local hour (Date.getHours) through one of a few fixed step functions; this
 module states each one and relates it to an hour-by-hour reference table.
 */
module Hours {

  /** An hour of the local day, as Date.getHours returns it. */
  type Hour = h: int | 0 <= h < 24

  // ---------------------------------------------------------------------------
  // Flight counters: a peak / night / nominal step function
  // ---------------------------------------------------------------------------

  /** Base of the daily arrival and departure counters, before jitter. */
  function DailyBaseFlights(hour: Hour): (base: int)
    ensures base == 150 || base == 250 || base == 350
    ensures base == 150 ==> hour <= 5
  {
    if (hour >= 6 && hour <= 10) || (hour >= 18 && hour <= 22) then 350
    else if hour >= 0 && hour <= 5 then 150
    else 250
  }

  /** Base of the hourly arrival and departure figures on the activity dashboard. */
  function HourlyBaseRate(hour: Hour): (base: int)
    ensures base == 8 || base == 15 || base == 28
    ensures base == 8 ==> hour <= 5
  {
    if (hour >= 6 && hour <= 10) || (hour >= 18 && hour <= 22) then 28
    else if hour >= 0 && hour <= 5 then 8
    else 15
  }

  /** The ten extra aircraft the dashboard adds to its in-air figure during the day. */
  function DaytimeAircraftBonus(hour: Hour): (bonus: int)
    ensures bonus == 0 || bonus == 10
  {
    if hour >= 6 && hour <= 22 then 10 else 0
  }

  // Independent references: one entry per hour, 00 through 23.

  const DailyBaseByHour: seq<int> :=
    [150, 150, 150, 150, 150, 150,     // 00-05 night
     350, 350, 350, 350, 350,          // 06-10 morning peak
     250, 250, 250, 250, 250, 250, 250,// 11-17
     350, 350, 350, 350, 350,          // 18-22 evening peak
     250]                              // 23

  const HourlyBaseByHour: seq<int> :=
    [8, 8, 8, 8, 8, 8,
     28, 28, 28, 28, 28,
     15, 15, 15, 15, 15, 15, 15,
     28, 28, 28, 28, 28,
     15]

  /** The daily base follows the hour-by-hour table. */
  lemma DailyBaseMatchesTable(hour: Hour)
    ensures |DailyBaseByHour| == 24
    ensures DailyBaseFlights(hour) == DailyBaseByHour[hour]
  {
  }

  /** The hourly base follows the hour-by-hour table. */
  lemma HourlyBaseMatchesTable(hour: Hour)
    ensures |HourlyBaseByHour| == 24
    ensures HourlyBaseRate(hour) == HourlyBaseByHour[hour]
  {
  }

  /** The two flight counters use the same three bands: each level of one determines the level of the other. */
  lemma CountersShareBands(hour: Hour)
    ensures DailyBaseFlights(hour) == 350 <==> HourlyBaseRate(hour) == 28
    ensures DailyBaseFlights(hour) == 150 <==> HourlyBaseRate(hour) == 8
    ensures DailyBaseFlights(hour) == 250 <==> HourlyBaseRate(hour) == 15
  {
  }

  /** The daytime bonus covers both traffic peaks, and the night band never has it. */
  lemma BonusCoversPeaks(hour: Hour)
    ensures DailyBaseFlights(hour) == 350 ==> DaytimeAircraftBonus(hour) == 10
    ensures DailyBaseFlights(hour) == 150 ==> DaytimeAircraftBonus(hour) == 0
    ensures DaytimeAircraftBonus(hour) == 0 <==> hour <= 5 || hour == 23
  {
  }

  // ---------------------------------------------------------------------------
  // Airport status badge
  // ---------------------------------------------------------------------------

  datatype Status = LowActivity | Operational

  /** The status badge: low activity only from 01 to 05; hour 00 counts as operational. */
  function AirportStatus(hour: Hour): (s: Status)
    ensures s == LowActivity ==> DailyBaseFlights(hour) == 150
  {
    if hour >= 1 && hour <= 5 then LowActivity else Operational
  }

  /** The text the badge shows for a status. */
  function StatusText(s: Status): (text: string)
    ensures text == "Low Activity" <==> s == LowActivity
  {
    match s
    case LowActivity => "Low Activity"
    case Operational => "Airport Operational"
  }

  /** Hour 00 is the one hour in the night band of the counters that the badge still reports as operational. */
  lemma StatusLagsNightBand(hour: Hour)
    ensures (DailyBaseFlights(hour) == 150 && AirportStatus(hour) == Operational) <==> hour == 0
    ensures AirportStatus(hour) == LowActivity <==> DailyBaseFlights(hour) == 150 && hour != 0
  {
  }

  // ---------------------------------------------------------------------------
  // Terminal congestion
  // ---------------------------------------------------------------------------

  const CongestionLevels: seq<string> := ["Low", "Normal", "Moderate", "High"]

  /** Index into CongestionLevels: moderate in the two rush bands, low at night, normal otherwise. */
  function CongestionIndex(hour: Hour): (index: int)
    ensures 0 <= index < |CongestionLevels| - 1
  {
    if (hour >= 7 && hour <= 9) || (hour >= 17 && hour <= 19) then 2
    else if hour >= 0 && hour <= 5 then 0
    else 1
  }

  const CongestionIndexByHour: seq<int> :=
    [0, 0, 0, 0, 0, 0,    // 00-05
     1,                   // 06
     2, 2, 2,             // 07-09
     1, 1, 1, 1, 1, 1, 1, // 10-16
     2, 2, 2,             // 17-19
     1, 1, 1, 1]          // 20-23

  /** The congestion index follows the hour-by-hour table. */
  lemma CongestionMatchesTable(hour: Hour)
    ensures |CongestionIndexByHour| == 24
    ensures CongestionIndex(hour) == CongestionIndexByHour[hour]
  {
  }

  /** The label shown for the hour's congestion; "High" is never reached. */
  function CongestionLabel(hour: Hour): (text: string)
    ensures text in {"Low", "Normal", "Moderate"}
    ensures text == "Low" <==> DailyBaseFlights(hour) == 150
  {
    CongestionLevels[CongestionIndex(hour)]
  }

  /** Width of the congestion bar in percent: a quarter per level, so never the full bar. */
  function CongestionBarWidth(hour: Hour): (width: int)
    ensures width == 25 || width == 50 || width == 75
    ensures CongestionLevels[width / 25 - 1] == CongestionLabel(hour)
  {
    (CongestionIndex(hour) + 1) * 25
  }

  /** The congestion rush bands are not the flight peaks: 06, 10 and 20-22 are flight peaks without moderate
      congestion, and 17 has moderate congestion at nominal traffic. */
  lemma CongestionVersusTraffic(hour: Hour)
    ensures CongestionIndex(hour) == 0 <==> DailyBaseFlights(hour) == 150
    ensures CongestionIndex(hour) == 2 && DailyBaseFlights(hour) != 350 <==> hour == 17
    ensures DailyBaseFlights(hour) == 350 && CongestionIndex(hour) != 2 <==> hour in {6, 10, 20, 21, 22}
  {
  }
}

=== FILE: lazyload.dfy ===
/**
 Lazy loading of the heavy iframe embeds. Each `.lazy-load-container` is watched by an
 intersection observer; a callback delivers a batch of entries, and for each intersecting
 one the container gets an iframe for its data-src unless it already has one, and is no
 longer observed. With a loading placeholder present the placeholder fades and the iframe
 replaces the container's content 300 ms later (a timer); without one it is appended at once.
 */
module LazyLoad {

  import opened Options

  /**
   One container: its data-src attribute, whether its loading placeholder is still there,
   the src of each iframe inside it, the iframes created and waiting for the 300 ms swap, how many
   iframes were created for it so far (each one a network load), and whether it is observed.
   */
  datatype Container = Container(
    src: Option<string>,
    placeholder: bool,
    iframes: seq<string>,
    pending: seq<string>,
    created: nat,
    observed: bool)

  /** A container as the page registers it: no iframe yet, and observed. */
  function Fresh(src: Option<string>, placeholder: bool): (c: Container)
    ensures c.observed && c.created == 0 && |c.iframes| == 0 && |c.pending| == 0
  {
    Container(src, placeholder, [], [], 0, true)
  }

  /**
   The load condition of an intersecting entry. As written it asks only for a data-src and
   for no iframe inside the container; the corrected condition also refuses while an iframe waits for its swap.
   */
  datatype Guard = AsWritten | Corrected

  predicate Eligible(c: Container, g: Guard)
  {
    Truthy(c.src) && |c.iframes| == 0 && (g == Corrected ==> |c.pending| == 0)
  }

  /** One entry of an observer callback batch for this container. */
  function HandleEntry(c: Container, intersecting: bool, g: Guard): (r: Container)
    ensures r.src == c.src && r.placeholder == c.placeholder
    ensures !(intersecting && Eligible(c, g)) ==> r == c
    ensures intersecting && Eligible(c, g) ==>
      && !r.observed && r.created == c.created + 1 && r.src == c.src
      && |r.iframes| + |r.pending| == |c.iframes| + |c.pending| + 1
      && (c.placeholder ==> r.iframes == c.iframes && r.pending == c.pending + [c.src.value])
      && (!c.placeholder ==> r.iframes == [c.src.value] && r.pending == c.pending)
  {
    if intersecting && Eligible(c, g) then
      var loading := c.(created := c.created + 1, observed := false);
      if c.placeholder then loading.(pending := c.pending + [c.src.value])
      else loading.(iframes := c.iframes + [c.src.value])
    else c
  }

  /** The callback's loop over its entries; it does not look at whether the container is still observed. */
  function HandleEntries(c: Container, entries: seq<bool>, g: Guard): (r: Container)
    ensures r.src == c.src && r.placeholder == c.placeholder
    ensures (forall i :: 0 <= i < |entries| ==> !entries[i]) ==> r == c
    ensures !Truthy(c.src) ==> r == c
    ensures r.created >= c.created && (!c.observed ==> !r.observed)
    ensures g == Corrected && |c.iframes| + |c.pending| > 0 ==> r == c
    ensures Eligible(c, g) && (exists i :: 0 <= i < |entries| && entries[i]) ==>
      && !r.observed && r.created > c.created
      && (g == Corrected ==> r.created == c.created + 1)
    decreases |entries|
  {
    if |entries| == 0 then c else HandleEntries(HandleEntry(c, entries[0], g), entries[1..], g)
  }

  /** A callback batch: the observer delivers entries only for containers it still observes. */
  function Deliver(c: Container, entries: seq<bool>, g: Guard): (r: Container)
    ensures !c.observed ==> r == c
    ensures c.observed && Eligible(c, g) && (exists i :: 0 <= i < |entries| && entries[i]) ==>
      && !r.observed && r.created > c.created
      && (g == Corrected ==> r.created == c.created + 1)
  {
    if c.observed then HandleEntries(c, entries, g) else c
  }

  /** The 300 ms timer of a placeholder swap: the container's content is replaced by the waiting iframe. */
  function Swap(c: Container): (r: Container)
    ensures |c.pending| == 0 ==> r == c
    ensures |c.pending| > 0 ==> !r.placeholder && r.iframes == [c.pending[0]] && r.pending == c.pending[1..]
    ensures r.created == c.created && r.observed == c.observed && r.src == c.src
  {
    if |c.pending| == 0 then c
    else c.(placeholder := false, iframes := [c.pending[0]], pending := c.pending[1..])
  }

  datatype Event = Batch(entries: seq<bool>) | Timer

  function Apply(c: Container, e: Event, g: Guard): Container
  {
    match e
    case Batch(entries) => Deliver(c, entries, g)
    case Timer => Swap(c)
  }

  function Replay(c: Container, events: seq<Event>, g: Guard): Container
    decreases |events|
  {
    if |events| == 0 then c else Replay(Apply(c, events[0], g), events[1..], g)
  }

  // ---------------------------------------------------------------------------
  // Properties of the corrected guard
  // ---------------------------------------------------------------------------

  /** Invariant of the corrected loader: at most one iframe is ever created, each created iframe is
      either shown or waiting, and the container is observed exactly until it loads. */
  predicate LoadedOnce(c: Container)
  {
    && c.created <= 1
    && |c.iframes| + |c.pending| == c.created
    && (c.observed <==> c.created == 0)
  }

  lemma {:induction false} HandleEntriesLoadedOnce(c: Container, entries: seq<bool>)
    requires LoadedOnce(c)
    ensures LoadedOnce(HandleEntries(c, entries, Corrected))
    decreases |entries|
  {
    if |entries| > 0 {
      HandleEntriesLoadedOnce(HandleEntry(c, entries[0], Corrected), entries[1..]);
    }
  }

  /** With the corrected guard a container loads at most one iframe, whatever batches and timers arrive. */
  lemma {:induction false} AtMostOnce(c: Container, events: seq<Event>)
    requires LoadedOnce(c)
    ensures LoadedOnce(Replay(c, events, Corrected))
    ensures Replay(c, events, Corrected).created <= 1
    decreases |events|
  {
    if |events| > 0 {
      var next := Apply(c, events[0], Corrected);
      if events[0].Batch? && c.observed {
        HandleEntriesLoadedOnce(c, events[0].entries);
      }
      assert LoadedOnce(next);
      AtMostOnce(next, events[1..]);
    }
  }

  /** Once a container has loaded, further batches leave it alone: re-triggering is a no-op. */
  lemma LoadedIgnoresBatches(c: Container, entries: seq<bool>)
    requires LoadedOnce(c) && c.created == 1
    ensures Deliver(c, entries, Corrected) == c
  {
  }

  // ---------------------------------------------------------------------------
  // Properties that hold for the guard as written too
  // ---------------------------------------------------------------------------

  /** Without a data-src a container never changes and stays observed, under either guard. */
  lemma {:induction false} MissingSourceNeverLoads(c: Container, events: seq<Event>, g: Guard)
    requires !Truthy(c.src) && |c.pending| == 0
    ensures Replay(c, events, g) == c
    decreases |events|
  {
    if |events| > 0 {
      assert Apply(c, events[0], g) == c;
      MissingSourceNeverLoads(c, events[1..], g);
    }
  }

  predicate NeverIntersects(events: seq<Event>)
  {
    forall i, j :: 0 <= i < |events| && events[i].Batch? && 0 <= j < |events[i].entries| ==> !events[i].entries[j]
  }

  /** A container that has never intersected the expanded viewport has no iframe, under either guard. */
  lemma {:induction false} NoEmbedBeforeIntersection(c: Container, events: seq<Event>, g: Guard)
    requires |c.pending| == 0 && NeverIntersects(events)
    ensures Replay(c, events, g) == c
    decreases |events|
  {
    if |events| > 0 {
      assert Apply(c, events[0], g) == c by {
        if events[0].Batch? {
          assert forall j :: 0 <= j < |events[0].entries| ==> !events[0].entries[j];
        }
      }
      assert NeverIntersects(events[1..]) by {
        forall i, j | 0 <= i < |events[1..]| && events[1..][i].Batch? && 0 <= j < |events[1..][i].entries|
          ensures !events[1..][i].entries[j]
        {
          assert events[1..][i] == events[i + 1];
        }
      }
      NoEmbedBeforeIntersection(c, events[1..], g);
    }
  }

  /** Without a placeholder nothing ever waits for a swap, so within a batch the two guards agree. */
  lemma {:induction false} NoPlaceholderEntriesAgree(c: Container, entries: seq<bool>)
    requires !c.placeholder && |c.pending| == 0
    ensures HandleEntries(c, entries, AsWritten) == HandleEntries(c, entries, Corrected)
    ensures |HandleEntries(c, entries, AsWritten).pending| == 0
    decreases |entries|
  {
    if |entries| > 0 {
      assert HandleEntry(c, entries[0], AsWritten) == HandleEntry(c, entries[0], Corrected);
      NoPlaceholderEntriesAgree(HandleEntry(c, entries[0], AsWritten), entries[1..]);
    }
  }

  /**
   For a container without a placeholder the guard as written behaves exactly like the
   corrected one under any batches and timers, so the page as written already keeps the
   at-most-once property there.
   */
  lemma {:induction false} NoPlaceholderGuardsAgree(c: Container, events: seq<Event>)
    requires !c.placeholder && |c.pending| == 0
    ensures Replay(c, events, AsWritten) == Replay(c, events, Corrected)
    decreases |events|
  {
    if |events| > 0 {
      var next := Apply(c, events[0], AsWritten);
      if events[0].Batch? && c.observed {
        NoPlaceholderEntriesAgree(c, events[0].entries);
      }
      assert next == Apply(c, events[0], Corrected);
      NoPlaceholderGuardsAgree(next, events[1..]);
    }
  }

  /** The page as written creates at most one iframe for a container without a placeholder. */
  lemma AtMostOnceWithoutPlaceholder(c: Container, events: seq<Event>)
    requires LoadedOnce(c) && !c.placeholder && |c.pending| == 0
    ensures Replay(c, events, AsWritten).created <= 1
  {
    NoPlaceholderGuardsAgree(c, events);
    AtMostOnce(c, events);
  }

  /** Within one batch the container never comes to show more than one iframe, whichever guard is used. */
  lemma {:induction false} HandleEntriesShowsOne(c: Container, entries: seq<bool>, g: Guard)
    requires |c.iframes| <= 1
    ensures |HandleEntries(c, entries, g).iframes| <= 1
    decreases |entries|
  {
    if |entries| > 0 {
      HandleEntriesShowsOne(HandleEntry(c, entries[0], g), entries[1..], g);
    }
  }

  /** The document never holds two iframes in one container, even with the guard as written. */
  lemma {:induction false} NeverTwoIframesShown(c: Container, events: seq<Event>, g: Guard)
    requires |c.iframes| <= 1
    ensures |Replay(c, events, g).iframes| <= 1
    decreases |events|
  {
    if |events| > 0 {
      if events[0].Batch? && c.observed {
        HandleEntriesShowsOne(c, events[0].entries, g);
      }
      NeverTwoIframesShown(Apply(c, events[0], g), events[1..], g);
    }
  }

  /**
   The guard as written loads twice: a container with a placeholder whose batch holds two
   intersecting entries (it left and re-entered the margin before the callback ran) gets a
   second iframe while the first one still waits for its swap. Both are created; the second
   swap then replaces the first.
   */
  lemma DoubleLoadAsWritten()
    ensures var c := Fresh(Some("https://example.org/embed"), true);
      var afterBatch := Replay(c, [Batch([true, false, true])], AsWritten);
      var afterSwaps := Replay(c, [Batch([true, false, true]), Timer, Timer], AsWritten);
      && afterBatch.created == 2
      && |afterBatch.pending| == 2
      && afterSwaps.created == 2
      && afterSwaps.iframes == ["https://example.org/embed"]
      && Replay(c, [Batch([true, false, true])], Corrected).created == 1
  {
    var c := Fresh(Some("https://example.org/embed"), true);
    var c1 := HandleEntry(c, true, AsWritten);
    assert c1.pending == ["https://example.org/embed"] && c1.iframes == [];
    var c3 := HandleEntry(HandleEntry(c1, false, AsWritten), true, AsWritten);
    assert c3.created == 2;
    assert HandleEntries(c, [true, false, true], AsWritten) == c3 by {
      assert [true, false, true][1..] == [false, true];
      assert [false, true][1..] == [true];
      assert [true][1..] == [];
    }
    assert Replay(c, [Batch([true, false, true])], AsWritten) == c3 by {
      assert [Batch([true, false, true])][1..] == [];
    }
    var d1 := HandleEntry(c, true, Corrected);
    assert HandleEntries(c, [true, false, true], Corrected) == d1 by {
      assert [true, false, true][1..] == [false, true];
      assert [false, true][1..] == [true];
      assert [true][1..] == [];
    }
    assert [Batch([true, false, true]), Timer, Timer][1..] == [Timer, Timer];
    assert [Timer, Timer][1..] == [Timer];
    assert [Timer][1..] == [];
  }
}

=== FILE: navbar.dfy ===
/**
 The navigation bar's reaction to scrolling. Scroll events only capture the offset and
 request an animation frame, at most one at a time (the `ticking` flag); the frame then
 runs the update, which restyles the bar and, on a narrow viewport, hides it on a downward
 scroll past 100 and shows it again on an upward scroll. Offsets are whole pixels here.
 */
module Navbar {

  /** Offset a downward scroll must pass before a narrow viewport hides the bar. */
  const HideThreshold := 100

  /** isMobile(): the viewport is at most 768 CSS pixels wide. */
  const MobileMaxWidth := 768

  predicate IsMobile(width: int)
  {
    width <= MobileMaxWidth
  }

  /**
   The script's scroll state and the bar's visible state: the last offset handled, whether
   the bar carries the scrolled style, whether it is translated out of view, whether an
   update is pending, and the offsets captured by the frame callbacks requested so far.
   */
  datatype Bar = Bar(lastScroll: int, scrolled: bool, hidden: bool, ticking: bool, queued: seq<int>)

  /** State at page load: nothing scrolled, bar shown, no frame requested. */
  const Initial := Bar(0, false, false, false, [])

  /** The throttle's invariant: a pending update exists exactly while ticking, and there is at most one. */
  predicate Throttled(b: Bar)
  {
    |b.queued| <= 1 && (b.ticking <==> |b.queued| == 1)
  }

  /** updateNavbar(currentScroll), run from an animation frame on a viewport of the given kind. */
  function UpdateNavbar(b: Bar, current: int, mobile: bool): (r: Bar)
    ensures r.lastScroll == current && !r.ticking && r.queued == b.queued
    ensures current <= 0 ==> !r.scrolled && !r.hidden
    ensures current > 0 ==> r.scrolled
    // hiding happens only on a downward move past the threshold on a narrow viewport, and always then
    ensures r.hidden && !b.hidden ==> mobile && current > b.lastScroll && current > HideThreshold
    ensures mobile && current > b.lastScroll && current > HideThreshold ==> r.hidden
    // showing happens only at the top or on an upward move on a narrow viewport, and always then
    ensures !r.hidden && b.hidden ==> current <= 0 || (mobile && current < b.lastScroll)
    ensures mobile && current < b.lastScroll ==> !r.hidden
    // an unchanged offset, or a wide viewport away from the top, leaves the bar where it was
    ensures current > 0 && (current == b.lastScroll || !mobile) ==> r.hidden == b.hidden
  {
    var b' :=
      if current <= 0 then b.(scrolled := false, hidden := false)
      else
        var s := b.(scrolled := true);
        if mobile then
          if current > b.lastScroll && current > HideThreshold then s.(hidden := true)
          else if current < b.lastScroll then s.(hidden := false)
          else s
        else s;
    b'.(lastScroll := current, ticking := false)
  }

  /** The scroll listener: capture the offset and request a frame, unless one is already pending. */
  function OnScroll(b: Bar, offset: int): (r: Bar)
    ensures Throttled(b) ==> Throttled(r)
    ensures r.ticking
    ensures b.ticking ==> r == b
    ensures Throttled(b) && !b.ticking ==> r.queued == [offset]
    ensures r.lastScroll == b.lastScroll && r.hidden == b.hidden && r.scrolled == b.scrolled
  {
    if !b.ticking then b.(queued := b.queued + [offset], ticking := true) else b
  }

  /** Run the requested frame callbacks in order. */
  function RunQueued(b: Bar, q: seq<int>, mobile: bool): (r: Bar)
    ensures r.queued == b.queued
    ensures |q| == 0 ==> r == b
    ensures |q| > 0 ==> !r.ticking && r.lastScroll == q[|q| - 1]
    ensures !mobile && !b.hidden ==> !r.hidden
    decreases |q|
  {
    if |q| == 0 then b else RunQueued(UpdateNavbar(b, q[0], mobile), q[1..], mobile)
  }

  /** An animation frame on a viewport of the given width: every requested callback runs once. */
  function OnFrame(b: Bar, width: int): (r: Bar)
    ensures r.queued == []
    ensures Throttled(b) ==> Throttled(r) && !r.ticking
    ensures |b.queued| == 0 ==> r == b
    ensures |b.queued| == 1 ==> r.lastScroll == b.queued[0]
  {
    RunQueued(b.(queued := []), b.queued, IsMobile(width))
  }

  datatype Event = Scroll(offset: int) | Frame(width: int)

  function Apply(b: Bar, e: Event): (r: Bar)
    ensures Throttled(b) ==> Throttled(r)
  {
    match e
    case Scroll(offset) => OnScroll(b, offset)
    case Frame(width) => OnFrame(b, width)
  }

  /** The state after a sequence of events, applied left to right. */
  function Replay(b: Bar, events: seq<Event>): (r: Bar)
    decreases |events|
  {
    if |events| == 0 then b else Replay(Apply(b, events[0]), events[1..])
  }

  /** Whatever the interleaving of scroll events and frames, at most one update is ever pending. */
  lemma {:induction false} AtMostOnePending(b: Bar, events: seq<Event>)
    requires Throttled(b)
    ensures Throttled(Replay(b, events))
    ensures |Replay(b, events).queued| <= 1
    decreases |events|
  {
    if |events| > 0 {
      AtMostOnePending(Apply(b, events[0]), events[1..]);
    }
  }

  predicate AllWide(events: seq<Event>)
  {
    forall i :: 0 <= i < |events| && events[i].Frame? ==> !IsMobile(events[i].width)
  }

  /** On a wide viewport a shown bar is never hidden, whatever is scrolled. */
  lemma {:induction false} WideBarStaysShown(b: Bar, events: seq<Event>)
    requires Throttled(b) && !b.hidden && AllWide(events)
    ensures !Replay(b, events).hidden
    decreases |events|
  {
    if |events| > 0 {
      var b' := Apply(b, events[0]);
      assert AllWide(events[1..]) by {
        forall i | 0 <= i < |events[1..]| && events[1..][i].Frame?
          ensures !IsMobile(events[1..][i].width)
        {
          assert events[1..][i] == events[i + 1];
        }
      }
      WideBarStaysShown(b', events[1..]);
    }
  }

  /** The page-load state satisfies the throttle's invariant. */
  lemma InitialThrottled()
    ensures Throttled(Initial) && !Initial.hidden
  {
  }
}

=== FILE: options.dfy ===
/** Optional values, the model's stand-in for a DOM attribute or element that may be absent. */
module Options {

  datatype Option<+T> = None | Some(value: T)

  /** JavaScript truthiness of a getAttribute result: a missing attribute (null) and the empty string are both falsy. */
  predicate Truthy(attr: Option<string>)
  {
    attr.Some? && |attr.value| > 0
  }
}

=== FILE: widgets.dfy ===
/**
 Lazy loading of the third-party flight widgets. Each `.lazy-load-widget` names an airport
 and a widget type; on its first intersecting entry it gets one asynchronous script whose URL
 is a fixed template filled with those two attributes, and it is no longer observed. When the
 script has loaded, the widget's loading placeholder is hidden.
 */
module FlightWidget {

  import opened Options

  /** The fixed part of the widget script URL, up to the airport code. */
  const WidgetBase: string := "https://fids.flightradar.live/widgets/airport/"

  /** The script URL for an airport and a widget type. */
  function WidgetUrl(airport: string, kind: string): (url: string)
    ensures |url| == |WidgetBase| + |airport| + 1 + |kind|
    ensures url[..|WidgetBase|] == WidgetBase
  {
    WidgetBase + airport + "/" + kind
  }

  /** Splits a string at its first occurrence of sep. */
  function SplitFirst(s: string, sep: char): (r: Option<(string, string)>)
    ensures r.None? <==> sep !in s
    ensures r.Some? ==> sep !in r.value.0 && s == r.value.0 + [sep] + r.value.1
    decreases |s|
  {
    if |s| == 0 then None
    else if s[0] == sep then Some(([], s[1..]))
    else
      match SplitFirst(s[1..], sep)
      case None => None
      case Some(parts) => Some(([s[0]] + parts.0, parts.1))
  }

  lemma {:induction false} SplitFirstUnique(a: string, sep: char, b: string)
    requires sep !in a
    ensures SplitFirst(a + [sep] + b, sep) == Some((a, b))
    decreases |a|
  {
    if |a| > 0 {
      var s := a + [sep] + b;
      assert s[0] == a[0] && s[0] != sep;
      assert s[1..] == a[1..] + [sep] + b;
      SplitFirstUnique(a[1..], sep, b);
      assert [a[0]] + a[1..] == a;
    } else {
      assert a + [sep] + b == [sep] + b;
    }
  }

  /** Reads the airport and the widget type back out of a widget script URL. */
  function ParseWidgetUrl(url: string): (r: Option<(string, string)>)
  {
    if |url| < |WidgetBase| || url[..|WidgetBase|] != WidgetBase then None
    else SplitFirst(url[|WidgetBase|..], '/')
  }

  /** The URL determines the attributes it was built from, for airport codes without a slash. */
  lemma WidgetUrlRoundTrip(airport: string, kind: string)
    requires '/' !in airport
    ensures ParseWidgetUrl(WidgetUrl(airport, kind)) == Some((airport, kind))
  {
    var url := WidgetUrl(airport, kind);
    assert url[|WidgetBase|..] == airport + ['/'] + kind;
    SplitFirstUnique(airport, '/', kind);
  }

  /** Conversely, every URL the parser accepts is the template filled with what it read. */
  lemma WidgetUrlParsedBack(url: string)
    ensures ParseWidgetUrl(url).Some? ==>
      var parts := ParseWidgetUrl(url).value;
      '/' !in parts.0 && WidgetUrl(parts.0, parts.1) == url
  {
    if ParseWidgetUrl(url).Some? {
      assert url == url[..|WidgetBase|] + url[|WidgetBase|..];
    }
  }

  /**
   One widget: its data-airport and data-type attributes, the src of each script inside it,
   whether it holds a loading placeholder and whether that is displayed, and whether it is observed.
   */
  datatype Widget = Widget(
    airport: Option<string>,
    kind: Option<string>,
    scripts: seq<string>,
    hasPlaceholder: bool,
    placeholderShown: bool,
    observed: bool)

  /**
   A widget as the page registers it: no script yet, observed, and its placeholder, when the
   markup has one, displayed.
   */
  function Fresh(airport: Option<string>, kind: Option<string>, placeholder: bool): (w: Widget)
    ensures w.observed && |w.scripts| == 0
    ensures w.hasPlaceholder == placeholder && w.placeholderShown == placeholder
  {
    Widget(airport, kind, [], placeholder, placeholder, true)
  }

  /** One entry of an observer callback batch for this widget. */
  function HandleEntry(w: Widget, intersecting: bool): (r: Widget)
    ensures r.airport == w.airport && r.kind == w.kind && r.hasPlaceholder == w.hasPlaceholder && r.placeholderShown == w.placeholderShown
    ensures !intersecting || !Truthy(w.airport) || !Truthy(w.kind) || |w.scripts| > 0 ==> r == w
    ensures r != w ==> !r.observed && r.scripts == w.scripts + [WidgetUrl(w.airport.value, w.kind.value)]
    ensures intersecting && Truthy(w.airport) && Truthy(w.kind) && |w.scripts| == 0 ==>
      !r.observed && r.scripts == w.scripts + [WidgetUrl(w.airport.value, w.kind.value)]
  {
    if intersecting && Truthy(w.airport) && Truthy(w.kind) && |w.scripts| == 0 then
      w.(scripts := w.scripts + [WidgetUrl(w.airport.value, w.kind.value)], observed := false)
    else w
  }

  /** The callback's loop over its entries; it does not look at whether the widget is still observed. */
  function HandleEntries(w: Widget, entries: seq<bool>): (r: Widget)
    ensures r.airport == w.airport && r.kind == w.kind && r.hasPlaceholder == w.hasPlaceholder && r.placeholderShown == w.placeholderShown
    ensures (forall i :: 0 <= i < |entries| ==> !entries[i]) ==> r == w
    ensures |w.scripts| > 0 ==> r == w
    ensures |w.scripts| == 0 && Truthy(w.airport) && Truthy(w.kind) && (exists i :: 0 <= i < |entries| && entries[i]) ==>
      !r.observed && r.scripts == [WidgetUrl(w.airport.value, w.kind.value)]
    decreases |entries|
  {
    if |entries| == 0 then w else HandleEntries(HandleEntry(w, entries[0]), entries[1..])
  }

  /** A callback batch: the observer delivers entries only for widgets it still observes. */
  function Deliver(w: Widget, entries: seq<bool>): (r: Widget)
    ensures !w.observed ==> r == w
    ensures w.observed && |w.scripts| == 0 && Truthy(w.airport) && Truthy(w.kind) && (exists i :: 0 <= i < |entries| && entries[i]) ==>
      !r.observed && r.scripts == [WidgetUrl(w.airport.value, w.kind.value)]
  {
    if w.observed then HandleEntries(w, entries) else w
  }

  /** The script's load event: the placeholder, if the widget holds one, is hidden. */
  function OnScriptLoad(w: Widget): (r: Widget)
    ensures w.hasPlaceholder ==> !r.placeholderShown
    ensures !w.hasPlaceholder ==> r == w
    ensures r.hasPlaceholder == w.hasPlaceholder
    ensures r.scripts == w.scripts && r.observed == w.observed
  {
    if w.hasPlaceholder then w.(placeholderShown := false) else w
  }

  datatype Event = Batch(entries: seq<bool>) | ScriptLoaded

  /** A load event can only come from a script that was inserted. */
  function Apply(w: Widget, e: Event): Widget
  {
    match e
    case Batch(entries) => Deliver(w, entries)
    case ScriptLoaded => if |w.scripts| > 0 then OnScriptLoad(w) else w
  }

  function Replay(w: Widget, events: seq<Event>): Widget
    decreases |events|
  {
    if |events| == 0 then w else Replay(Apply(w, events[0]), events[1..])
  }

  /** Invariant of a widget: at most one script, which is the template URL for its attributes; observed
      exactly until it has it; placeholder hidden only once it has it. */
  predicate LoadedOnce(w: Widget)
  {
    && |w.scripts| <= 1
    && (w.observed <==> |w.scripts| == 0)
    && (!w.hasPlaceholder ==> !w.placeholderShown)
    && (w.hasPlaceholder && !w.placeholderShown ==> |w.scripts| == 1)
    && (|w.scripts| == 1 ==>
          Truthy(w.airport) && Truthy(w.kind) && w.scripts[0] == WidgetUrl(w.airport.value, w.kind.value))
  }

  lemma {:induction false} HandleEntriesLoadedOnce(w: Widget, entries: seq<bool>)
    requires LoadedOnce(w)
    ensures LoadedOnce(HandleEntries(w, entries))
    ensures HandleEntries(w, entries).airport == w.airport && HandleEntries(w, entries).kind == w.kind
    decreases |entries|
  {
    if |entries| > 0 {
      HandleEntriesLoadedOnce(HandleEntry(w, entries[0]), entries[1..]);
    }
  }

  /** A widget gets at most one script, for its own airport and type, whatever batches and load events arrive. */
  lemma {:induction false} AtMostOnce(w: Widget, events: seq<Event>)
    requires LoadedOnce(w)
    ensures LoadedOnce(Replay(w, events))
    ensures |Replay(w, events).scripts| <= 1
    decreases |events|
  {
    if |events| > 0 {
      if events[0].Batch? && w.observed {
        HandleEntriesLoadedOnce(w, events[0].entries);
      }
      AtMostOnce(Apply(w, events[0]), events[1..]);
    }
  }

  /** Without both an airport and a type a widget never changes and stays observed. */
  lemma {:induction false} IncompleteWidgetNeverLoads(w: Widget, events: seq<Event>)
    requires (!Truthy(w.airport) || !Truthy(w.kind)) && |w.scripts| == 0
    ensures Replay(w, events) == w
    decreases |events|
  {
    if |events| > 0 {
      assert Apply(w, events[0]) == w by {
        if events[0].Batch? && w.observed {
          HandleEntriesUnchanged(w, events[0].entries);
        }
      }
      IncompleteWidgetNeverLoads(w, events[1..]);
    }
  }

  lemma {:induction false} HandleEntriesUnchanged(w: Widget, entries: seq<bool>)
    requires !Truthy(w.airport) || !Truthy(w.kind)
    ensures HandleEntries(w, entries) == w
    decreases |entries|
  {
    if |entries| > 0 {
      HandleEntriesUnchanged(w, entries[1..]);
    }
  }

  /** The registered state satisfies the invariant. */
  lemma FreshLoadedOnce(airport: Option<string>, kind: Option<string>, placeholder: bool)
    ensures LoadedOnce(Fresh(airport, kind, placeholder))
  {
  }
}

=== FILE: wind.dfy ===
/**
 The simulated wind of the activity dashboard: a whole-degree angle, the compass label
 shown for it, and the runway pair the page marks active for it.
 */
module Wind {

  import opened Options

  /** A wind angle as the dashboard draws it, Math.floor(Math.random() * 360). */
  type Degree = d: int | 0 <= d < 360

  const CompassLabels: seq<string> := ["N", "NE", "E", "SE", "S", "SW", "W", "NW"]

  /** The 45-degree sector an angle falls in: it truncates, it does not round to the nearest point. */
  function Sector(deg: Degree): (k: int)
    ensures 0 <= k < |CompassLabels|
    ensures 45 * k <= deg < 45 * k + 45
  {
    deg / 45
  }

  /** The direction label shown for an angle; the table lookup is always in bounds. */
  function Direction(deg: Degree): (text: string)
    ensures text in CompassLabels
  {
    CompassLabels[Sector(deg)]
  }

  /** The label for sector k covers exactly the angles [45k, 45k + 45). */
  lemma DirectionCovers(deg: Degree, k: int)
    requires 0 <= k < |CompassLabels|
    ensures Direction(deg) == CompassLabels[k] <==> 45 * k <= deg < 45 * k + 45
  {
  }

  // ---------------------------------------------------------------------------
  // Runway selection
  // ---------------------------------------------------------------------------

  datatype RunwayPair = Pair35 | Pair17

  /** Runways 35L/35R for angles 135 through 315 inclusive, runways 17L/17R for every other angle. */
  function ActivePair(deg: Degree): (p: RunwayPair)
    ensures p == Pair35 ==> 3 <= Sector(deg) <= 7
    ensures p == Pair17 ==> Sector(deg) <= 2 || Sector(deg) == 7
    ensures Sector(deg) == 7 && p == Pair35 ==> deg == 315
  {
    if deg >= 135 && deg <= 315 then Pair35 else Pair17
  }

  /** The data-runway values of the two runways of a pair. */
  function Designators(p: RunwayPair): (names: set<string>)
    ensures |names| == 2
  {
    match p
    case Pair35 => {"35L", "35R"}
    case Pair17 => {"17L", "17R"}
  }

  /** By compass sector: SE, S, SW and W always use 35L/35R; N, NE and E always use 17L/17R;
      NW is split, with only 315 itself on 35L/35R. */
  lemma PairBySector(deg: Degree)
    ensures 3 <= Sector(deg) <= 6 ==> ActivePair(deg) == Pair35
    ensures Sector(deg) <= 2 ==> ActivePair(deg) == Pair17
    ensures Sector(deg) == 7 ==> (ActivePair(deg) == Pair35 <==> deg == 315)
  {
  }

  /** The runway choice is not a function of the label shown: 315 and 316 both read "NW". */
  lemma PairNotDeterminedByDirection()
    ensures Direction(315) == Direction(316) == "NW"
    ensures ActivePair(315) == Pair35 && ActivePair(316) == Pair17
  {
  }

  /** An element of the page that the runway update touches: whether it carries the runway
      class, its data-runway attribute, and whether it carries the active class. */
  datatype RunwayElement = RunwayElement(runwayClass: bool, designator: Option<string>, active: bool)

  predicate InPair(e: RunwayElement, p: RunwayPair)
  {
    e.designator.Some? && e.designator.value in Designators(p)
  }

  /** First pass: remove the active class from every runway-class element. */
  function ClearActive(els: seq<RunwayElement>): (r: seq<RunwayElement>)
    ensures |r| == |els|
    ensures forall i :: 0 <= i < |els| ==> r[i].runwayClass == els[i].runwayClass && r[i].designator == els[i].designator
    ensures forall i :: 0 <= i < |els| && els[i].runwayClass ==> !r[i].active
    ensures forall i :: 0 <= i < |els| && !els[i].runwayClass ==> r[i] == els[i]
  {
    seq(|els|, i requires 0 <= i < |els| =>
      if els[i].runwayClass then els[i].(active := false) else els[i])
  }

  /** Second pass: add the active class to every element whose data-runway names a runway of the pair. */
  function MarkPair(els: seq<RunwayElement>, p: RunwayPair): (r: seq<RunwayElement>)
    ensures |r| == |els|
    ensures forall i :: 0 <= i < |els| ==> r[i].runwayClass == els[i].runwayClass && r[i].designator == els[i].designator
    ensures forall i :: 0 <= i < |els| && InPair(els[i], p) ==> r[i].active
    ensures forall i :: 0 <= i < |els| && !InPair(els[i], p) ==> r[i] == els[i]
  {
    seq(|els|, i requires 0 <= i < |els| =>
      if InPair(els[i], p) then els[i].(active := true) else els[i])
  }

  /** The runway update of one dashboard tick: clear every active runway, then activate the pair the angle selects. */
  function SelectRunways(els: seq<RunwayElement>, deg: Degree): (r: seq<RunwayElement>)
    ensures |r| == |els|
    ensures forall i :: 0 <= i < |els| ==>
      r[i].runwayClass == els[i].runwayClass && r[i].designator == els[i].designator
    ensures forall i :: 0 <= i < |els| && els[i].runwayClass ==>
      (r[i].active <==> InPair(els[i], ActivePair(deg)))
    ensures forall i :: 0 <= i < |els| && InPair(els[i], ActivePair(deg)) ==> r[i].active
    ensures forall i :: 0 <= i < |els| && !els[i].runwayClass && !InPair(els[i], ActivePair(deg)) ==>
      r[i].active == els[i].active
  {
    MarkPair(ClearActive(els), ActivePair(deg))
  }

  /** A runway element named 35L or 35R ends up active exactly when 135 <= deg <= 315, one named
      17L or 17R exactly otherwise, so exactly one pair is active. */
  lemma SelectRunwaysByAngle(els: seq<RunwayElement>, deg: Degree, i: int)
    requires 0 <= i < |els| && els[i].runwayClass && els[i].designator.Some?
    ensures els[i].designator.value in {"35L", "35R"} ==>
      (SelectRunways(els, deg)[i].active <==> 135 <= deg <= 315)
    ensures els[i].designator.value in {"17L", "17R"} ==>
      (SelectRunways(els, deg)[i].active <==> !(135 <= deg <= 315))
  {
  }

  /** The runway classes after an update do not depend on the angles of earlier updates. */
  lemma SelectRunwaysForgetsHistory(els: seq<RunwayElement>, d1: Degree, d2: Degree)
    ensures forall i :: 0 <= i < |els| && els[i].runwayClass ==>
      SelectRunways(SelectRunways(els, d1), d2)[i] == SelectRunways(els, d2)[i]
  {
  }
}
